=== FILE: README.md ===
# VariantData in Dafny

A model of `VariantData` from CppVariantData. `VariantData` is a container that holds one
type-erased value behind a `shared_ptr<void>`. It records the run-time type the value was stored
as (`std::type_index`) and carries a set of `Access` flags. Each flag grants one way of reaching
the value:

- copying a value in or out;
- cloning into fresh storage, or cloning out;
- handing out const or mutable references;
- handing out const or mutable shared pointers;
- replacing the pointer;
- changing the type;
- restricting or unrestricting the flags themselves.

The flags are combined with a masked bit-flag algebra, `EnumBitFlags`, specialised to `Access`.

The project has four modules and one file of properties:

- `access.dfy`, module `AccessFlags`: the `Access` enumeration and its flag traits.
  - An `Access` value is any 32-bit pattern of the underlying `int`. It is written as the set of
    positions of its one bits.
  - `Value` reads a pattern as an unsigned 32-bit number. This ties the model to the declared constants
    (`AssignPut = 1` … `UnrestrictFlags = 2048`, `None = 0`, `All = 4095`), and `Value` is
    injective.
  - The twelve named permissions form the `Capability` datatype. `Caps(a)` is the set of
    permissions a pattern carries. It is the reference view against which every operator is
    stated.
- `enum_bit_flags.dfy`, module `EnumBitFlags`:
  - the operators `|`, `&`, `^`, `~` and `!`, each masked with `All`;
  - the compound assignments `&=`, `|=` and `^=`;
  - `validate(actual, required, allowed = mask)`.
- `variant_data.dfy`, module `Variant`: the container and every public operation, plus the two
  private checks.
  - The container is the record `VariantData(ptr, ty, access)`. The objects its shared pointers
    designate live in an explicit `Heap` of typed cells.
  - Each operation maps the container and the heap to a `Step`: the new container, the new heap,
    and either the output or the error thrown.
  - The errors are `bad_cast`, `permission_error` naming the permission, and a dereference of an
    empty pointer.
- `variant_trace.dfy`, module `Trace`: sequences of calls, interleaved with writes that other code
  makes through pointers and references it was handed. It proves what holds along every such
  sequence.
- `variant_properties.dfy`, module `Properties`: properties that relate several calls. These cover
  aliasing through shared pointers, independence of clones, round trips, the rules of
  `ChangeFlags`, and copy and move.

Points about the code worth knowing:

- `ClonePut` and `Emplace` go through `AssertTypeAndAccess<T>`. They therefore throw `bad_cast`
  unless `T` is already the stored type; they never establish a new type. Only `ChangeType`
  changes the type.
- `ChangeType` and `ChangeFlags` install the new flags as given, without masking. The stored flags
  may therefore carry bits outside `All`. `validate` ignores those bits.
  - A `ChangeFlags` call whose new flags carry the same permissions as the current ones changes
    nothing, whatever bits outside the mask they add or remove (`ChangeFlagsIgnoresBitsOutsideMask`).
- The container can become empty again: `Replace` or `ChangeType` with an empty pointer, or being
  moved from.
- In `AssertTypeAndAccess` the second test repeats the type comparison. That comparison can no
  longer fail at that point, so the test reduces to the permission test. Its contract states that
  reduction.

## Model

| member | source | states |
|---|---|---|
| AccessFlags.EnumeratorIsPower | VariantData.h:34-45 | each named permission is declared as the power of two at its position in the declaration |
| AccessFlags.ValueOfBit | VariantData.h:34-45 | the bit pattern of each named permission stands for the integer it is declared with |
| AccessFlags.ValueOfNoneAndAll | VariantData.h:46-47 | `None` is 0 and `All` is 4095 |
| AccessFlags.ValueInjective | VariantData.h:32-48 | two patterns with the same integer value are the same pattern, so the set-of-positions form loses nothing of the 32-bit value |
| AccessFlags.BitsDisjoint | VariantData.h:34-45 | different permissions have different integers and share no bit |
| AccessFlags.AllIsUnionOfNamedBits | VariantData.h:34-47 | `All` is exactly the union of the twelve named bits |
| AccessFlags.CapsOfAllAndNone | VariantData.h:46-60 | `All` carries every permission and `None` carries none, so the trait's mask carries every permission and its default value none |
| AccessFlags.CapsOfBit | VariantData.h:34-45 | a named bit carries exactly its own permission |
| AccessFlags.CapsOfUnion | VariantData.h:32-48 | the permissions of a union of patterns are the union of their permissions |
| AccessFlags.CapsInjective | VariantData.h:53-61 | inside the mask, a pattern is determined by the permissions it carries |
| EnumBitFlags.Or | EnumBitFlags_inline.h:30-38 | the result has no bit outside the mask, and its permissions are the union of the operands' permissions |
| EnumBitFlags.And | EnumBitFlags_inline.h:40-48 | the result has no bit outside the mask, and its permissions are the intersection |
| EnumBitFlags.Xor | EnumBitFlags_inline.h:50-58 | the result has no bit outside the mask, and its permissions are the symmetric difference |
| EnumBitFlags.Complement | EnumBitFlags_inline.h:60-67 | the result has no bit outside the mask, and it carries exactly the permissions the operand lacks |
| EnumBitFlags.IsEmpty | EnumBitFlags_inline.h:69-78 | `!a` holds exactly when `a` carries no permission, whatever bits it has outside the mask |
| EnumBitFlags.AndAssign | EnumBitFlags_inline.h:80-85 | the value stored into the left operand is the value returned, and it is the masked intersection |
| EnumBitFlags.OrAssign | EnumBitFlags_inline.h:87-92 | the value stored is the value returned, and it is the masked union |
| EnumBitFlags.XorAssign | EnumBitFlags_inline.h:94-99 | the value stored is the value returned, and it is the masked symmetric difference |
| EnumBitFlags.ComplementInvolutive | EnumBitFlags_inline.h:60-67 | inside the mask, `~~a == a`; `a & ~a` is `None` and `a \| ~a` is `All` |
| EnumBitFlags.SubsetIffCaps | EnumBitFlags_inline.h:40-48 | for `r` inside the mask, `a & r == r` holds exactly when `r`'s permissions are among `a`'s |
| EnumBitFlags.AllowedConjunctMeaning | EnumBitFlags_inline.h:106 | `!(actual & ~allowed)` holds exactly when every permission of `actual` is allowed |
| EnumBitFlags.ValidateMeaning | EnumBitFlags_inline.h:101-108 | `validate` is true exactly when `actual` stays within `allowed`, `required` has no bit outside the mask, and `actual` carries every permission of `required` |
| EnumBitFlags.ValidateAgainstMask | EnumBitFlags_inline.h:101-108 | with the default `allowed` (the mask), the first conjunct always holds and `validate` is containment of `required` in `actual` |
| EnumBitFlags.ValidateNothingRequired | EnumBitFlags_inline.h:101-108 | requiring `None` always validates |
| EnumBitFlags.ValidateRejectsOutOfMask | EnumBitFlags_inline.h:101-108 | a requirement with a bit outside the mask never validates |
| EnumBitFlags.ValidateSingle | EnumBitFlags_inline.h:101-108 | validating a single named permission is true exactly when `actual` carries it |
| Variant.AssertAccess | VariantData_inline.h:213-219 | passes exactly when the permission is granted, and otherwise throws `permission_error` for that permission |
| Variant.AssertTypeAndAccess | VariantData_inline.h:199-211 | throws `bad_cast` exactly on a type mismatch; with the type matching, throws `permission_error` exactly when the permission is missing; passes exactly when both hold |
| Variant.AssignPut | VariantData_inline.h:33-45 | gated by type, `AssignPut` and a live object; on success only the container's object changes, to the new value, and the container stays as it was |
| Variant.AssignGet | VariantData_inline.h:47-53 | gated by type, `AssignGet` and a live object; yields a copy of the stored value and changes nothing |
| Variant.ClonePut | VariantData_inline.h:55-67 | gated by type and `ClonePut`; points the container at a fresh object holding the new value, keeps type and flags, and leaves every existing object as it was |
| Variant.Emplace | VariantData_inline.h:69-74 | gated by type and the `ClonePut` permission; points the container at a fresh object holding the constructed value |
| Variant.CloneGet | VariantData_inline.h:76-82 | gated by type, `CloneGet` and a live object; yields a mutable pointer to a fresh object holding a copy, and leaves the container and every existing object as they were |
| Variant.RefConst | VariantData_inline.h:84-90 | gated by type, `RefConst` and a live object; yields a const reference to the container's object |
| Variant.RefMut | VariantData_inline.h:92-98 | gated by type, `RefMut` and a live object; yields a mutable reference to the container's object |
| Variant.ShareConst | VariantData_inline.h:100-105 | gated by type and `ShareConst`; yields a const pointer sharing the container's object, which is empty if the container is |
| Variant.ShareMut | VariantData_inline.h:107-112 | gated by type and `ShareMut`; yields a mutable pointer sharing the container's object |
| Variant.Replace | VariantData_inline.h:114-130 | gated by type and `Replace`; installs the new pointer, keeps type and flags, and yields the displaced pointer |
| Variant.ChangeType | VariantData_inline.h:132-141 | succeeds exactly with `ChangeType`, with no type test; installs the new pointer, its type and the new flags unmasked; the rvalue overload at lines 149-158 is identical |
| Variant.ChangeTypeKeepFlags | VariantData_inline.h:143-147 | as `ChangeType`, keeping the current flags |
| Variant.ChangeFlags | VariantData_inline.h:166-182 | dropping a permission needs `RestrictFlags` and is tested first; adding one needs `UnrestrictFlags`; on success the permissions are those of the new flags, which are installed as given when some permission changes and ignored when none does |
| Trace.ApplyFailureChangesNothing | VariantData_inline.h:199-219 | a call that throws changes neither the container nor any object |
| Trace.ApplyFrame | VariantData_inline.h:132-182 | only the `ChangeType` calls change the recorded type, and only they and `ChangeFlags` change the flags |
| Trace.ApplyGrowsAndKeepsConsistent | VariantData_inline.h:55-130 | a call never removes an object or changes an object's type, and keeps the container's pointer consistent with its recorded type |
| Trace.ChangeFlagsLocked | VariantData_inline.h:166-182 | without `UnrestrictFlags` and `ChangeType`, `ChangeFlags` gains no permission and grants neither of the two |
| Trace.ApplyLocked | VariantData_inline.h:166-182 | without `UnrestrictFlags` and `ChangeType`, one call gains no permission, grants neither of the two, and keeps the type |
| Trace.RunGrows | VariantData_inline.h:33-182 | over any sequence of calls, objects are never removed and keep their types |
| Trace.RunConsistent | VariantData_inline.h:33-182 | over any sequence of calls, the container's pointer is empty or designates a live object of the recorded type |
| Trace.RunNoEscalation | VariantData_inline.h:132-182 | a container granted neither `UnrestrictFlags` nor `ChangeType` ends any sequence of calls with no permission it lacked, and with its type unchanged |
| Trace.RunKeepsFlagsAndType | VariantData_inline.h:33-130 | a sequence without `ChangeType` or `ChangeFlags` calls leaves flags and type exactly as they were |
| Properties.LiveIffHasValue | VariantData_inline.h:189-192 | for a consistent container, dereferencing can fail only when `HasValue` is false |
| Properties.AssignPutThenAssignGet | VariantData_inline.h:33-53 | `AssignGet` after `AssignPut` yields the value put |
| Properties.ShareMutAliases | VariantData_inline.h:107-112 | the pointer from `ShareMut` is the container's own, and a value stored through it is what `AssignGet` reads |
| Properties.AssignPutVisibleThroughShareConst | VariantData_inline.h:100-105 | a value assigned with `AssignPut` is seen through a pointer handed out earlier by `ShareConst` |
| Properties.CloneGetIsIndependent | VariantData_inline.h:76-82 | the copy from `CloneGet` is a different object holding the stored value; later assignments to either side are not seen by the other |
| Properties.ClonePutRebinds | VariantData_inline.h:55-67 | after `ClonePut`, `AssignGet` yields the new value, and every earlier object keeps its value |
| Properties.ReplaceRoundTrip | VariantData_inline.h:114-130 | `Replace` yields the displaced pointer, and replacing back with it restores the container exactly and yields the pointer installed in between |
| Properties.ChangeTypeThenGetters | VariantData_inline.h:132-197 | after `ChangeType`, `GetType` is the new type, `GetFlags` the new flags as given, and `HasValue` whether the new pointer is non-empty |
| Properties.ChangeFlagsNarrowing | VariantData_inline.h:166-182 | a pure narrowing succeeds exactly with `RestrictFlags` and installs the new flags |
| Properties.ChangeFlagsWidening | VariantData_inline.h:166-182 | a pure widening succeeds exactly with `UnrestrictFlags` and installs the new flags |
| Properties.ChangeFlagsRestrictionTestedFirst | VariantData_inline.h:170-177 | when permissions are both dropped and added and `RestrictFlags` is missing, the error names `RestrictFlags` |
| Properties.ChangeFlagsIgnoresBitsOutsideMask | VariantData_inline.h:166-182 | new flags carrying the same permissions as the current ones, whatever their bits outside the mask, change nothing, even without either right |
| Properties.ChangeFlagsUndo | VariantData_inline.h:166-182 | when the new flags keep both `RestrictFlags` and `UnrestrictFlags`, changing back restores the container exactly |
| Properties.CopySharesObject | VariantData.h:92 | both copies report the source's type, flags and emptiness, and a value assigned through one copy is read back through the other |
| Properties.MovedFromIsEmpty | VariantData.h:93-94 | after a move the target equals the source; the moved-from container holds no value but keeps its type and flags; on it every permitted, well-typed `AssignPut`, `AssignGet`, `CloneGet`, `RefConst` and `RefMut` dereferences an empty pointer (`AssignPut` changing nothing), and `ShareConst` and `ShareMut` hand out an empty pointer |
| Properties.TypeSafetyExample | VariantData_inline.h:84-90 | with `ClonePut` and `RefConst`, putting an `int` 5 and asking for a `string` reference throws `bad_cast`, while an `int` reference designates the 5 |
| Properties.NarrowingExample | VariantData_inline.h:166-182 | holding `AssignPut` and `RestrictFlags`, narrowing to `AssignPut` succeeds |
| Properties.WideningRefusedExample | VariantData_inline.h:166-182 | with the same flags, adding `RefConst` is refused for want of `UnrestrictFlags` |
| Properties.NoChangeExample | VariantData_inline.h:178-181 | asking for the flags already held succeeds and changes nothing, whatever rights are held |

## Left out

- Constructors and destructors. Their bodies are not part of this model. The state a container
  starts in is a parameter of every lemma, not the default-constructed state.
- Reference counting and object lifetime. The heap never frees an object. A shared pointer that
  the model keeps is always live, which matches `shared_ptr` keeping its object alive. The raw
  references from `RefConst` and `RefMut` are different: in the source they dangle once
  `ClonePut`, `Emplace`, `Replace`, `ChangeType` or a move assignment drops the last owner of
  the object.
  In the model they stay valid, and `Trace.Store` may write through them.
- `std::type_index` is a name (`TypeId`). Values are integers, whatever their type: one value
  domain stands for all `T`.
- Dereferencing an empty `m_ptr` is undefined behaviour in the source (`AssignPut`, `AssignGet`,
  `CloneGet`, `RefConst`, `RefMut`). The model makes it an explicit `InvalidDereference` error.
  On that error nothing changes.
- The `const T&` and `T&&` overloads of `AssignPut`, `ClonePut` and `Replace` are one function
  each. Copying versus moving the argument makes no difference to the model. The `T&&`
  overloads of `AssignPut` and `ClonePut` take forwarding references. With a non-const lvalue
  argument, `T` is deduced as a reference type `U&` and that overload is chosen. The
  `static_cast` at `VariantData_inline.h` line 44 and the `make_shared` at line 66 are then
  ill-formed, so only const lvalues and rvalues can be passed. The model has no such
  restriction.
- Emplace: the argument forwarding is written `std::forward<args>...`. The model takes the value
  that construction would produce as a parameter.
- CloneGet: the copy is written `std::shared_ptr<T>(t)`. The model takes it as the evidently
  intended `make_shared<T>(t)`: a fresh object holding a copy.
- The exception class hierarchy and the free text of messages are left out. The model keeps
  which error is thrown. For a permission error it also keeps which permission's test failed, as
  `PermissionDenied(missing)`. The source reports that permission only in the message string,
  for example "RestrictFlags" and "UnrestrictFlags" at `VariantData_inline.h` lines 172 and 176,
  and "Emplace requires ClonePut" at line 72.
- ShareConst, ShareMut, Replace: these bodies build a `shared_ptr<const T>` or `shared_ptr<T>`
  directly from the `shared_ptr<void>` member. That conversion does not exist, because `void*`
  does not convert to `T*`, so they would not compile if instantiated. The same holds for
  `throw std::bad_cast(msg)` in `AssertTypeAndAccess`, because the standard `std::bad_cast` has
  no constructor taking a message. The model takes the evident intent: `ShareConst` and
  `ShareMut` return a handle that aliases `m_ptr`; `Replace` returns the displaced pointer; and
  a type mismatch throws `bad_cast`.
- Replace, ChangeType, ChangeTypeKeepFlags: the argument `shared_ptr<T>` is required to be empty
  or to designate a live object created as `T`. This stands for the source's static typing,
  stated as a `requires`. Inheritance is not modelled: in the source a `shared_ptr<T>` may point
  into an object of a class derived from `T`, which `Typed` excludes.
- Exceptions other than `bad_cast` and the permission error are left out. In the source,
  `make_shared` may throw `bad_alloc` (lines 59, 66 and 73). `T`'s copy or move constructor, or
  its assignment operator, may throw (lines 37, 44, 52, 59, 66 and 81). A throwing assignment
  can leave the object partly written after the gate has passed. The model's integer values
  never throw, and allocation never fails.
- Concurrency is left out. The source gives no atomicity.
- Some members are plain definitions with no contract of their own:
  - the getters `GetFlags`, `HasValue` and `GetType` are plain field reads. They are stated
    through `ChangeTypeThenGetters`, `LiveIffHasValue`, `CopySharesObject` and
    `MovedFromIsEmpty`;
  - `EnumBitFlags.Validate` (`validate`, `EnumBitFlags_inline.h` lines 101-108) is stated through
    `ValidateMeaning` and the other `Validate*` lemmas;
  - `Variant.Copy` (the defaulted copy constructor, `VariantData.h` line 92) is stated through
    `CopySharesObject`;
  - `Variant.Move` (the defaulted move constructor and move assignment, `VariantData.h` lines
    93-94) is stated through `MovedFromIsEmpty`.
- The generic `enum_type_traits` machinery is modelled only for `Access`, the one enumeration the
  container uses.

=== FILE: access.dfy ===
/** The `Access` permission enumeration of a variant container and the
    bit-flag traits that make it a masked bit set.

    `enum class Access` has `int` as its underlying type, so an `Access`
    value is any 32-bit pattern, not only one of the named constants. The
    model writes a bit pattern as the set of positions of its one bits:
    bitwise or, and, exclusive or and complement are then union,
    intersection, symmetric difference and complement against the 32
    positions, and `Value` gives back the integer the pattern stands for.
    The twelve named permissions are listed once more as the `Capability`
    datatype; `Caps` reads a pattern as the set of permissions it carries. */
module AccessFlags {

  /** The number of bits of the underlying `int`. */
  const Width: nat := 32

  /** An `Access` value: the positions of the one bits of its pattern. */
  type Access = a: set<nat> | forall i | i in a :: i < Width witness {}

  /** The twelve named permissions, in declaration order. */
  datatype Capability =
    | AssignPut | AssignGet | ClonePut | CloneGet
    | RefConst | RefMut | ShareConst | ShareMut
    | Replace | ChangeType | RestrictFlags | UnrestrictFlags

  const AllCaps: set<Capability> :=
    {AssignPut, AssignGet, ClonePut, CloneGet, RefConst, RefMut,
     ShareConst, ShareMut, Replace, ChangeType, RestrictFlags, UnrestrictFlags}

  /** The bit position of a permission: its place in the declaration. */
  function Ordinal(c: Capability): (k: nat)
    ensures k < 12
  {
    match c
    case AssignPut => 0
    case AssignGet => 1
    case ClonePut => 2
    case CloneGet => 3
    case RefConst => 4
    case RefMut => 5
    case ShareConst => 6
    case ShareMut => 7
    case Replace => 8
    case ChangeType => 9
    case RestrictFlags => 10
    case UnrestrictFlags => 11
  }

  /** The permission at a bit position below 12. */
  function AtOrdinal(k: nat): (c: Capability)
    requires k < 12
    ensures Ordinal(c) == k
  {
    if k == 0 then AssignPut
    else if k == 1 then AssignGet
    else if k == 2 then ClonePut
    else if k == 3 then CloneGet
    else if k == 4 then RefConst
    else if k == 5 then RefMut
    else if k == 6 then ShareConst
    else if k == 7 then ShareMut
    else if k == 8 then Replace
    else if k == 9 then ChangeType
    else if k == 10 then RestrictFlags
    else UnrestrictFlags
  }

  /** The integer each named enumerator is declared with. */
  function EnumeratorValue(c: Capability): nat {
    match c
    case AssignPut => 1
    case AssignGet => 2
    case ClonePut => 4
    case CloneGet => 8
    case RefConst => 16
    case RefMut => 32
    case ShareConst => 64
    case ShareMut => 128
    case Replace => 256
    case ChangeType => 512
    case RestrictFlags => 1024
    case UnrestrictFlags => 2048
  }

  /** The pattern of a named enumerator. */
  function Bit(c: Capability): Access {
    {Ordinal(c)}
  }

  /** `None`, `All`, and the flag traits of `Access`: the default value and
      the mask every masked operator applies to its result. */
  const None: Access := {}
  const All: Access := Below(12)
  const DefaultValue: Access := None
  const MaskValue: Access := All

  /** The positions below `n`. */
  function Below(n: nat): (r: set<nat>)
    ensures forall i: nat :: i in r <==> i < n
  {
    if n == 0 then {} else Below(n - 1) + {n - 1}
  }

  /** `a` carries the bit of `c`. */
  predicate Has(a: Access, c: Capability) {
    Ordinal(c) in a
  }

  /** The set of named permissions a pattern carries. Bits outside the mask
      name no permission and do not show here. */
  function Caps(a: Access): set<Capability> {
    set c | c in AllCaps && Has(a, c)
  }

  /** `a` has no bit outside the mask. */
  predicate Within(a: Access) {
    a <= All
  }

  // ---------------------------------------------------------------------
  // The integer a pattern stands for.

  function Pow2(n: nat): (p: nat)
    ensures p >= 1
  {
    if n == 0 then 1 else 2 * Pow2(n - 1)
  }

  /** The integer spelled by the bits of `a` below position `n`. */
  function ValueBelow(a: set<nat>, n: nat): nat {
    if n == 0 then 0
    else ValueBelow(a, n - 1) + (if n - 1 in a then Pow2(n - 1) else 0)
  }

  /** The integer of a pattern (read as unsigned). */
  function Value(a: Access): nat {
    ValueBelow(a, Width)
  }

  lemma {:induction false} ValueBelowBound(a: set<nat>, n: nat)
    ensures ValueBelow(a, n) < Pow2(n)
  {
    if n > 0 {
      ValueBelowBound(a, n - 1);
    }
  }

  lemma {:induction false} ValueBelowSingleton(k: nat, n: nat)
    ensures ValueBelow({k}, n) == if k < n then Pow2(k) else 0
  {
    if n > 0 {
      ValueBelowSingleton(k, n - 1);
    }
  }

  lemma {:induction false} ValueBelowPrefix(m: nat, n: nat)
    requires n <= m
    ensures ValueBelow(Below(m), n) == Pow2(n) - 1
  {
    if n > 0 {
      ValueBelowPrefix(m, n - 1);
    }
  }

  lemma {:induction false} ValueBelowStable(a: set<nat>, m: nat, n: nat)
    requires m <= n
    requires forall i | i in a :: i < m
    ensures ValueBelow(a, n) == ValueBelow(a, m)
  {
    if n > m {
      ValueBelowStable(a, m, n - 1);
    }
  }

  /** Each named enumerator is declared as the power of two at its
      position. */
  lemma EnumeratorIsPower(c: Capability)
    ensures EnumeratorValue(c) == Pow2(Ordinal(c))
  {
    Pow2Table();
    match c
    case AssignPut =>
    case AssignGet =>
    case ClonePut =>
    case CloneGet =>
    case RefConst =>
    case RefMut =>
    case ShareConst =>
    case ShareMut =>
    case Replace =>
    case ChangeType =>
    case RestrictFlags =>
    case UnrestrictFlags =>
  }

  /** The pattern of a named permission stands for its declared integer. */
  lemma ValueOfBit(c: Capability)
    ensures Value(Bit(c)) == EnumeratorValue(c)
  {
    ValueBelowSingleton(Ordinal(c), Width);
    EnumeratorIsPower(c);
  }

  /** `None` stands for 0 and `All` for 4095. */
  lemma ValueOfNoneAndAll()
    ensures Value(None) == 0
    ensures Value(All) == 4095
  {
    ValueBelowStable(None, 0, Width);
    ValueOfPrefix(12);
    Pow2Table();
  }

  /** The pattern of the low `m` bits stands for 2^m - 1. */
  lemma ValueOfPrefix(m: nat)
    requires m <= Width
    ensures ValueBelow(Below(m), Width) == Pow2(m) - 1
  {
    ValueBelowPrefix(m, m);
    ValueBelowStable(Below(m), m, Width);
  }

  lemma Pow2Table()
    ensures Pow2(0) == 1 && Pow2(1) == 2 && Pow2(2) == 4 && Pow2(3) == 8
    ensures Pow2(4) == 16 && Pow2(5) == 32 && Pow2(6) == 64 && Pow2(7) == 128
    ensures Pow2(8) == 256 && Pow2(9) == 512 && Pow2(10) == 1024
    ensures Pow2(11) == 2048 && Pow2(12) == 4096
  {
  }

  lemma {:induction false} ValueBelowInjective(a: set<nat>, b: set<nat>, n: nat)
    requires ValueBelow(a, n) == ValueBelow(b, n)
    ensures forall i | i < n :: i in a <==> i in b
  {
    if n > 0 {
      ValueBelowBound(a, n - 1);
      ValueBelowBound(b, n - 1);
      assert n - 1 in a <==> n - 1 in b;
      ValueBelowInjective(a, b, n - 1);
    }
  }

  /** Two patterns with the same integer are the same pattern: the set of
      positions is an exact encoding of the 32-bit value. */
  lemma ValueInjective(a: Access, b: Access)
    requires Value(a) == Value(b)
    ensures a == b
  {
    ValueBelowInjective(a, b, Width);
  }

  // ---------------------------------------------------------------------
  // The named bits and the permission view.

  /** Different named permissions are different single bits. */
  lemma BitsDisjoint(c: Capability, d: Capability)
    requires c != d
    ensures Bit(c) * Bit(d) == None
    ensures EnumeratorValue(c) != EnumeratorValue(d)
  {
  }

  /** `All` is exactly the union of the twelve named bits. */
  lemma AllIsUnionOfNamedBits()
    ensures All == Bit(AssignPut) + Bit(AssignGet) + Bit(ClonePut) + Bit(CloneGet)
                 + Bit(RefConst) + Bit(RefMut) + Bit(ShareConst) + Bit(ShareMut)
                 + Bit(Replace) + Bit(ChangeType) + Bit(RestrictFlags) + Bit(UnrestrictFlags)
  {
  }

  /** `All` carries every permission and `None` carries none; so the
      trait's mask carries every permission and its default value none. */
  lemma CapsOfAllAndNone()
    ensures Caps(All) == AllCaps
    ensures Caps(None) == {}
    ensures Caps(MaskValue) == AllCaps && Caps(DefaultValue) == {}
  {
  }

  /** Membership in `Caps` is exactly the bit test. */
  lemma CapsMember(a: Access, c: Capability)
    ensures c in Caps(a) <==> Has(a, c)
  {
  }

  /** A named bit carries exactly its own permission. */
  lemma CapsOfBit(c: Capability)
    ensures Caps(Bit(c)) == {c}
  {
  }

  /** The permissions of a union of patterns are the union of their
      permissions. */
  lemma CapsOfUnion(a: Access, b: Access)
    ensures Caps(a + b) == Caps(a) + Caps(b)
  {
  }

  /** Two patterns inside the mask that carry the same permissions are the
      same pattern: `Caps` loses nothing inside the mask. */
  lemma CapsInjective(a: Access, b: Access)
    requires Within(a) && Within(b)
    requires Caps(a) == Caps(b)
    ensures a == b
  {
    forall i | i in a ensures i in b {
      var c := AtOrdinal(i);
      CapsMember(a, c); CapsMember(b, c);
    }
    forall i | i in b ensures i in a {
      var c := AtOrdinal(i);
      CapsMember(a, c); CapsMember(b, c);
    }
  }
}

=== FILE: enum_bit_flags.dfy ===
/** The masked bit-flag operators, specialised to `Access`.

    Every binary operator computes the plain bitwise result on the 32-bit
    patterns and then keeps only the bits of the mask (`MaskValue`, which is
    `All` for `Access`); `~` flips all 32 bits and then masks; `!` asks
    whether no bit inside the mask is set; `validate` combines them into the
    permission test the container uses. Each operator is related to the
    permission view `Caps`, and `validate` to containment of permission
    sets. */
module EnumBitFlags {
  import opened AccessFlags

  /** All 32 bits set: what `~` flips against. */
  const Ones: Access := Below(Width)

  /** `a | b`, masked. */
  function Or(a: Access, b: Access): (r: Access)
    ensures Within(r)
    ensures Caps(r) == Caps(a) + Caps(b)
  {
    (a + b) * MaskValue
  }

  /** `a & b`, masked. */
  function And(a: Access, b: Access): (r: Access)
    ensures Within(r)
    ensures Caps(r) == Caps(a) * Caps(b)
  {
    (a * b) * MaskValue
  }

  /** `a ^ b`, masked. */
  function Xor(a: Access, b: Access): (r: Access)
    ensures Within(r)
    ensures Caps(r) == (Caps(a) - Caps(b)) + (Caps(b) - Caps(a))
  {
    ((a - b) + (b - a)) * MaskValue
  }

  /** `~a`: all 32 bits flipped, then masked. */
  function Complement(a: Access): (r: Access)
    ensures Within(r)
    ensures Caps(r) == AllCaps - Caps(a)
  {
    (Ones - a) * MaskValue
  }

  /** `!a`: no bit inside the mask is set. */
  function IsEmpty(a: Access): (r: bool)
    ensures r <==> Caps(a) == {}
  {
    MaskedBitsNamed(a);
    a * MaskValue == {}
  }

  /** `lhs &= rhs`, `lhs |= rhs`, `lhs ^= rhs`: the value stored into the
      left operand and the value the expression yields, as a pair. */
  function AndAssign(lhs: Access, rhs: Access): (r: (Access, Access))
    ensures r.0 == r.1
    ensures Within(r.0)
    ensures Caps(r.0) == Caps(lhs) * Caps(rhs)
  {
    var v := And(lhs, rhs); (v, v)
  }

  function OrAssign(lhs: Access, rhs: Access): (r: (Access, Access))
    ensures r.0 == r.1
    ensures Within(r.0)
    ensures Caps(r.0) == Caps(lhs) + Caps(rhs)
  {
    var v := Or(lhs, rhs); (v, v)
  }

  function XorAssign(lhs: Access, rhs: Access): (r: (Access, Access))
    ensures r.0 == r.1
    ensures Within(r.0)
    ensures Caps(r.0) == (Caps(lhs) - Caps(rhs)) + (Caps(rhs) - Caps(lhs))
  {
    var v := Xor(lhs, rhs); (v, v)
  }

  /** `validate(actual, required, allowed)`: `actual` has no bit inside the
      mask outside `allowed`, and `actual & required` gives back `required`. */
  predicate Validate(actual: Access, required: Access, allowed: Access := MaskValue) {
    IsEmpty(And(actual, Complement(allowed))) && And(actual, required) == required
  }

  // ---------------------------------------------------------------------
  // The operators against the permission view.

  /** Every bit of `a` inside the mask names a permission of `a`. */
  lemma MaskedBitsNamed(a: Access)
    ensures a * MaskValue == {} <==> Caps(a) == {}
  {
    if i :| i in a * MaskValue {
      CapsMember(a, AtOrdinal(i));
    }
  }

  /** Complementing twice gives back any value inside the mask; a value
      shares no bit with its complement, and together they make `All`. */
  lemma ComplementInvolutive(a: Access)
    requires Within(a)
    ensures Complement(Complement(a)) == a
    ensures And(a, Complement(a)) == None
    ensures Or(a, Complement(a)) == All
  {
  }

  /** For a value inside the mask, `a & r == r` is containment of the
      permission sets. */
  lemma SubsetIffCaps(r: Access, a: Access)
    requires Within(r)
    ensures (And(a, r) == r) <==> Caps(r) <= Caps(a)
  {
    if Caps(r) <= Caps(a) {
      assert Caps(And(a, r)) == Caps(r);
      CapsInjective(And(a, r), r);
    }
  }

  // ---------------------------------------------------------------------
  // validate

  /** The first conjunct of `validate`: no bit of `actual` inside the mask
      lies outside `allowed`. */
  lemma AllowedConjunctMeaning(actual: Access, allowed: Access)
    ensures IsEmpty(And(actual, Complement(allowed))) <==> Caps(actual) <= Caps(allowed)
  {
    var outside := And(actual, Complement(allowed));
    if !(Caps(actual) <= Caps(allowed)) {
      var c :| c in Caps(actual) && c !in Caps(allowed);
      assert c in Caps(outside);
    }
  }

  /** `validate` against the permission view, for any `allowed`: granted
      exactly when `actual` stays within `allowed` and carries every bit of
      `required`, and `required` has no bit outside the mask. */
  lemma ValidateMeaning(actual: Access, required: Access, allowed: Access)
    ensures Validate(actual, required, allowed)
        <==> Caps(actual) <= Caps(allowed) && Within(required) && Caps(required) <= Caps(actual)
  {
    AllowedConjunctMeaning(actual, allowed);
    if Within(required) {
      SubsetIffCaps(required, actual);
    }
  }

  /** With the default `allowed`, the first conjunct always holds and
      `validate` is containment of `required` in `actual`. */
  lemma ValidateAgainstMask(actual: Access, required: Access)
    ensures IsEmpty(And(actual, Complement(MaskValue)))
    ensures Validate(actual, required) <==> Within(required) && Caps(required) <= Caps(actual)
  {
    CapsOfAllAndNone();
    ValidateMeaning(actual, required, MaskValue);
    AllowedConjunctMeaning(actual, MaskValue);
  }

  /** Requiring nothing always validates. */
  lemma ValidateNothingRequired(actual: Access)
    ensures Validate(actual, None)
  {
  }

  /** A requirement with a bit outside the mask never validates, whatever
      `actual` and `allowed` are. */
  lemma ValidateRejectsOutOfMask(actual: Access, required: Access, allowed: Access)
    requires !Within(required)
    ensures !Validate(actual, required, allowed)
  {
  }

  /** The single-permission test the container performs: granted exactly
      when the permission's bit is set, whatever lies outside the mask. */
  lemma ValidateSingle(actual: Access, c: Capability)
    ensures Validate(actual, Bit(c)) <==> Has(actual, c)
  {
  }
}

=== FILE: variant_data.dfy ===
/** The `VariantData` container: one type-erased, shared value together
    with the run-time type it was stored as and the `Access` flags that gate
    every operation on it.

    The container is the immutable record `VariantData(ptr, ty, access)`;
    the storage its shared pointers designate is an explicit `Heap` of typed
    cells. Every operation is a function from the container and the heap to
    a `Step`: the container afterwards, the heap afterwards, and either the
    operation's output or the error it throws. A thrown error never changes
    the container or the heap. */
module Variant {
  import opened AccessFlags
  import opened EnumBitFlags

  // ---------------------------------------------------------------------
  // Data

  /** A run-time type identity (`std::type_index`). */
  datatype TypeId = TypeId(name: string)

  /** The contents of a cell. The model keeps one value domain for every
      type; the cell's `TypeId` says which type the value was stored as. */
  type Value = int

  type Ref = nat

  /** A shared pointer: empty, or designating a cell of the heap. */
  datatype Ptr = Null | At(ref: Ref)

  /** A heap object: the type it was created as and its current value. */
  datatype Cell = Cell(ty: TypeId, val: Value)

  datatype HeapRep = HeapRep(cells: map<Ref, Cell>, next: Ref)

  /** The shared storage. Every allocated reference lies below `next`, so
      `next` is always fresh. */
  type Heap = h: HeapRep | forall r | r in h.cells :: r < h.next
    witness HeapRep(map[], 0)

  /** `m_ptr`, `m_type`, `m_access`. */
  datatype VariantData = VariantData(ptr: Ptr, ty: TypeId, access: Access)

  /** `std::bad_cast`, `permission_error` for the permission tested, and
      the dereference of an empty pointer (undefined in the source). */
  datatype Error = BadCast | PermissionDenied(missing: Capability) | InvalidDereference

  datatype Check = Pass | Fail(error: Error)

  /** What an operation hands back: nothing, a copied value, a shared
      pointer (const or mutable), or a reference to a cell (const or
      mutable). */
  datatype Output =
    | Done
    | Copied(value: Value)
    | Handle(ptr: Ptr, mutable: bool)
    | Reference(ref: Ref, mutable: bool)

  datatype Result = Ok(out: Output) | Err(error: Error)

  /** The container and the heap after an operation, and its result. */
  datatype Step = Step(self: VariantData, heap: Heap, result: Result)

  // ---------------------------------------------------------------------
  // Heap vocabulary

  /** `p` is a pointer to `T` in the source's static typing: empty, or a
      live cell created as `t`. */
  predicate Typed(heap: Heap, p: Ptr, t: TypeId) {
    p.At? ==> p.ref in heap.cells && heap.cells[p.ref].ty == t
  }

  /** The container's pointer is empty or designates a live object of the
      container's recorded type. */
  predicate Consistent(self: VariantData, heap: Heap) {
    Typed(heap, self.ptr, self.ty)
  }

  /** Every object of `before` is still there, with the same type. */
  predicate Grows(before: Heap, after: Heap) {
    && before.next <= after.next
    && before.cells.Keys <= after.cells.Keys
    && forall r | r in before.cells :: after.cells[r].ty == before.cells[r].ty
  }

  /** The container's pointer designates a live cell. */
  predicate Live(self: VariantData, heap: Heap) {
    self.ptr.At? && self.ptr.ref in heap.cells
  }

  /** `after` is `before` with the live cell `r` overwritten by `cell` and
      nothing else changed. */
  predicate Overwrites(before: Heap, after: Heap, r: Ref, cell: Cell) {
    && r in before.cells
    && after.next == before.next
    && after.cells.Keys == before.cells.Keys
    && after.cells[r] == cell
    && forall q | q in before.cells && q != r :: after.cells[q] == before.cells[q]
  }

  /** `after` is `before` with one fresh cell `cell` at `r` and nothing
      else changed. */
  predicate Allocates(before: Heap, after: Heap, r: Ref, cell: Cell) {
    && r !in before.cells
    && after.cells.Keys == before.cells.Keys + {r}
    && after.cells[r] == cell
    && forall q | q in before.cells :: after.cells[q] == before.cells[q]
  }

  /** A fresh cell holding `cell`. */
  function Alloc(heap: Heap, cell: Cell): (r: (Heap, Ref))
    ensures Allocates(heap, r.0, r.1, cell)
  {
    (HeapRep(heap.cells[heap.next := cell], heap.next + 1), heap.next)
  }

  /** The value of the live cell `r`, with its type kept. */
  function Write(heap: Heap, r: Ref, v: Value): (h: Heap)
    requires r in heap.cells
    ensures Overwrites(heap, h, r, Cell(heap.cells[r].ty, v))
  {
    heap.(cells := heap.cells[r := Cell(heap.cells[r].ty, v)])
  }

  // ---------------------------------------------------------------------
  // Gates

  /** `AssertAccess`: throws `permission_error` unless `m_access`
      validates the permission. */
  function AssertAccess(self: VariantData, c: Capability): (r: Check)
    ensures r == Pass <==> Has(self.access, c)
    ensures r != Pass ==> r == Fail(PermissionDenied(c))
  {
    ValidateSingle(self.access, c);
    if !Validate(self.access, Bit(c)) then Fail(PermissionDenied(c)) else Pass
  }

  /** `AssertTypeAndAccess<T>`: throws `bad_cast` when `T` is not the
      stored type, and otherwise `permission_error` unless `m_access`
      validates the permission. The second test repeats the type
      comparison, which can no longer fail there. */
  function AssertTypeAndAccess(self: VariantData, t: TypeId, c: Capability): (r: Check)
    ensures r == Pass <==> t == self.ty && Has(self.access, c)
    ensures r == Fail(BadCast) <==> t != self.ty
    ensures r == Fail(PermissionDenied(c)) <==> t == self.ty && !Has(self.access, c)
  {
    ValidateSingle(self.access, c);
    if t != self.ty then Fail(BadCast)
    else if t != self.ty || !Validate(self.access, Bit(c)) then Fail(PermissionDenied(c))
    else Pass
  }

  /** How a typed operation gated by permission `c` may end: `bad_cast` on
      a type mismatch, else `permission_error` without `c`, else (when it
      dereferences the pointer) an invalid dereference when no cell is
      live; in each of those cases nothing changes, and otherwise it
      succeeds. */
  predicate Gated(s: Step, self: VariantData, heap: Heap, t: TypeId, c: Capability, deref: bool) {
    && (t != self.ty ==> s == Step(self, heap, Err(BadCast)))
    && (t == self.ty && !Has(self.access, c) ==>
          s == Step(self, heap, Err(PermissionDenied(c))))
    && (t == self.ty && Has(self.access, c) && deref && !Live(self, heap) ==>
          s == Step(self, heap, Err(InvalidDereference)))
    && (s.result.Ok? <==> t == self.ty && Has(self.access, c) && (deref ==> Live(self, heap)))
  }

  // ---------------------------------------------------------------------
  // Operations

  /** `AssignPut<T>(newValue)`: assigns the new value into the existing
      object, which every holder of the pointer then sees. */
  function AssignPut(self: VariantData, heap: Heap, t: TypeId, v: Value): (s: Step)
    ensures s.self.ty == self.ty && s.self.access == self.access
    ensures Grows(heap, s.heap)
    ensures Consistent(self, heap) ==> Consistent(s.self, s.heap)
    ensures Gated(s, self, heap, t, Capability.AssignPut, true)
    ensures s.result.Ok? ==> s.self == self && s.result.out == Done && Live(self, heap)
    ensures s.result.Ok? ==> Overwrites(heap, s.heap, self.ptr.ref, Cell(heap.cells[self.ptr.ref].ty, v))
  {
    var ck := AssertTypeAndAccess(self, t, Capability.AssignPut);
    if ck.Fail? then Step(self, heap, Err(ck.error))
    else if !Live(self, heap) then Step(self, heap, Err(InvalidDereference))
    else Step(self, Write(heap, self.ptr.ref, v), Ok(Done))
  }

  /** `AssignGet<T>(output)`: copies the stored value out. */
  function AssignGet(self: VariantData, heap: Heap, t: TypeId): (s: Step)
    ensures s.self.ty == self.ty && s.self.access == self.access
    ensures Grows(heap, s.heap)
    ensures Consistent(self, heap) ==> Consistent(s.self, s.heap)
    ensures Gated(s, self, heap, t, Capability.AssignGet, true)
    ensures s.self == self && s.heap == heap
    ensures s.result.Ok? ==> Live(self, heap) && s.result.out == Copied(heap.cells[self.ptr.ref].val)
  {
    var ck := AssertTypeAndAccess(self, t, Capability.AssignGet);
    if ck.Fail? then Step(self, heap, Err(ck.error))
    else if !Live(self, heap) then Step(self, heap, Err(InvalidDereference))
    else Step(self, heap, Ok(Copied(heap.cells[self.ptr.ref].val)))
  }

  /** `ClonePut<T>(newValue)`: points the container at a fresh object
      holding the new value; the old object, and every other holder of it,
      is left alone. */
  function ClonePut(self: VariantData, heap: Heap, t: TypeId, v: Value): (s: Step)
    ensures s.self.ty == self.ty && s.self.access == self.access
    ensures Grows(heap, s.heap)
    ensures Consistent(self, heap) ==> Consistent(s.self, s.heap)
    ensures Gated(s, self, heap, t, Capability.ClonePut, false)
    ensures s.result.Ok? ==>
      && s.result.out == Done
      && s.self.ty == self.ty && s.self.access == self.access
      && s.self.ptr.At?
      && Allocates(heap, s.heap, s.self.ptr.ref, Cell(t, v))
  {
    var ck := AssertTypeAndAccess(self, t, Capability.ClonePut);
    if ck.Fail? then Step(self, heap, Err(ck.error))
    else
      var (h, r) := Alloc(heap, Cell(t, v));
      Step(self.(ptr := At(r)), h, Ok(Done))
  }

  /** `Emplace<T>(args...)`: the variant of `ClonePut` that builds the new
      object in place from the constructor arguments; `v` is the value that
      construction produces. It is gated by the `ClonePut` permission. */
  function Emplace(self: VariantData, heap: Heap, t: TypeId, v: Value): (s: Step)
    ensures s.self.ty == self.ty && s.self.access == self.access
    ensures Grows(heap, s.heap)
    ensures Consistent(self, heap) ==> Consistent(s.self, s.heap)
    ensures Gated(s, self, heap, t, Capability.ClonePut, false)
    ensures s.result.Ok? ==>
      && s.result.out == Done
      && s.self.ty == self.ty && s.self.access == self.access
      && s.self.ptr.At?
      && Allocates(heap, s.heap, s.self.ptr.ref, Cell(t, v))
  {
    var ck := AssertTypeAndAccess(self, t, Capability.ClonePut);
    if ck.Fail? then Step(self, heap, Err(ck.error))
    else
      var (h, r) := Alloc(heap, Cell(t, v));
      Step(self.(ptr := At(r)), h, Ok(Done))
  }

  /** `CloneGet<T>()`: hands out a mutable pointer to a fresh copy of the
      stored value; the container keeps its own object. */
  function CloneGet(self: VariantData, heap: Heap, t: TypeId): (s: Step)
    ensures s.self.ty == self.ty && s.self.access == self.access
    ensures Grows(heap, s.heap)
    ensures Consistent(self, heap) ==> Consistent(s.self, s.heap)
    ensures Gated(s, self, heap, t, Capability.CloneGet, true)
    ensures s.self == self
    ensures s.result.Ok? ==>
      && s.result.out.Handle? && s.result.out.mutable && s.result.out.ptr.At?
      && Live(self, heap)
      && Allocates(heap, s.heap, s.result.out.ptr.ref, Cell(self.ty, heap.cells[self.ptr.ref].val))
  {
    var ck := AssertTypeAndAccess(self, t, Capability.CloneGet);
    if ck.Fail? then Step(self, heap, Err(ck.error))
    else if !Live(self, heap) then Step(self, heap, Err(InvalidDereference))
    else
      var (h, r) := Alloc(heap, Cell(t, heap.cells[self.ptr.ref].val));
      Step(self, h, Ok(Handle(At(r), true)))
  }

  /** `RefConst<T>()`: a const reference to the stored object. */
  function RefConst(self: VariantData, heap: Heap, t: TypeId): (s: Step)
    ensures s.self.ty == self.ty && s.self.access == self.access
    ensures Grows(heap, s.heap)
    ensures Consistent(self, heap) ==> Consistent(s.self, s.heap)
    ensures Gated(s, self, heap, t, Capability.RefConst, true)
    ensures s.self == self && s.heap == heap
    ensures s.result.Ok? ==> s.result.out == Reference(self.ptr.ref, false)
  {
    var ck := AssertTypeAndAccess(self, t, Capability.RefConst);
    if ck.Fail? then Step(self, heap, Err(ck.error))
    else if !Live(self, heap) then Step(self, heap, Err(InvalidDereference))
    else Step(self, heap, Ok(Reference(self.ptr.ref, false)))
  }

  /** `RefMut<T>()`: a mutable reference to the stored object. */
  function RefMut(self: VariantData, heap: Heap, t: TypeId): (s: Step)
    ensures s.self.ty == self.ty && s.self.access == self.access
    ensures Grows(heap, s.heap)
    ensures Consistent(self, heap) ==> Consistent(s.self, s.heap)
    ensures Gated(s, self, heap, t, Capability.RefMut, true)
    ensures s.self == self && s.heap == heap
    ensures s.result.Ok? ==> s.result.out == Reference(self.ptr.ref, true)
  {
    var ck := AssertTypeAndAccess(self, t, Capability.RefMut);
    if ck.Fail? then Step(self, heap, Err(ck.error))
    else if !Live(self, heap) then Step(self, heap, Err(InvalidDereference))
    else Step(self, heap, Ok(Reference(self.ptr.ref, true)))
  }

  /** `ShareConst<T>()`: a const pointer sharing the stored object (empty
      when the container is). */
  function ShareConst(self: VariantData, heap: Heap, t: TypeId): (s: Step)
    ensures s.self.ty == self.ty && s.self.access == self.access
    ensures Grows(heap, s.heap)
    ensures Consistent(self, heap) ==> Consistent(s.self, s.heap)
    ensures Gated(s, self, heap, t, Capability.ShareConst, false)
    ensures s.self == self && s.heap == heap
    ensures s.result.Ok? ==> s.result.out == Handle(self.ptr, false)
  {
    var ck := AssertTypeAndAccess(self, t, Capability.ShareConst);
    if ck.Fail? then Step(self, heap, Err(ck.error))
    else Step(self, heap, Ok(Handle(self.ptr, false)))
  }

  /** `ShareMut<T>()`: a mutable pointer sharing the stored object. */
  function ShareMut(self: VariantData, heap: Heap, t: TypeId): (s: Step)
    ensures s.self.ty == self.ty && s.self.access == self.access
    ensures Grows(heap, s.heap)
    ensures Consistent(self, heap) ==> Consistent(s.self, s.heap)
    ensures Gated(s, self, heap, t, Capability.ShareMut, false)
    ensures s.self == self && s.heap == heap
    ensures s.result.Ok? ==> s.result.out == Handle(self.ptr, true)
  {
    var ck := AssertTypeAndAccess(self, t, Capability.ShareMut);
    if ck.Fail? then Step(self, heap, Err(ck.error))
    else Step(self, heap, Ok(Handle(self.ptr, true)))
  }

  /** `Replace<T>(newPtr)`: installs a pointer of the stored type and hands
      back the one it displaces; type and flags stay. */
  function Replace(self: VariantData, heap: Heap, t: TypeId, p: Ptr): (s: Step)
    requires Typed(heap, p, t)
    ensures s.self.ty == self.ty && s.self.access == self.access
    ensures Grows(heap, s.heap)
    ensures Consistent(self, heap) ==> Consistent(s.self, s.heap)
    ensures Gated(s, self, heap, t, Capability.Replace, false)
    ensures s.heap == heap
    ensures s.result.Ok? ==>
      && s.self == VariantData(p, self.ty, self.access)
      && s.result.out == Handle(self.ptr, true)
  {
    var ck := AssertTypeAndAccess(self, t, Capability.Replace);
    if ck.Fail? then Step(self, heap, Err(ck.error))
    else Step(self.(ptr := p), heap, Ok(Handle(self.ptr, true)))
  }

  /** `ChangeType<T>(newPtr, newAccess)`: with the `ChangeType`
      permission, installs a pointer of any type, records that type, and
      installs the new flags as given (not masked). No type test. */
  function ChangeType(self: VariantData, heap: Heap, t: TypeId, p: Ptr, newAccess: Access): (s: Step)
    requires Typed(heap, p, t)
    ensures Consistent(s.self, s.heap) || s.result.Err?
    ensures s.heap == heap
    ensures s.result.Ok? <==> Has(self.access, Capability.ChangeType)
    ensures s.result.Err? ==>
      s == Step(self, heap, Err(PermissionDenied(Capability.ChangeType)))
    ensures s.result.Ok? ==>
      s.self == VariantData(p, t, newAccess) && s.result.out == Done
  {
    var ck := AssertAccess(self, Capability.ChangeType);
    if ck.Fail? then Step(self, heap, Err(ck.error))
    else Step(VariantData(p, t, newAccess), heap, Ok(Done))
  }

  /** `ChangeType<T>(newPtr)`: `ChangeType` keeping the current flags. */
  function ChangeTypeKeepFlags(self: VariantData, heap: Heap, t: TypeId, p: Ptr): (s: Step)
    requires Typed(heap, p, t)
    ensures Consistent(s.self, s.heap) || s.result.Err?
    ensures s.heap == heap
    ensures s.result.Ok? <==> Has(self.access, Capability.ChangeType)
    ensures s.result.Err? ==>
      s == Step(self, heap, Err(PermissionDenied(Capability.ChangeType)))
    ensures s.result.Ok? ==> s.self == VariantData(p, t, self.access)
  {
    ChangeType(self, heap, t, p, self.access)
  }

  /** The permissions `ChangeFlags(newAccess)` would take away, and those
      it would add. */
  function Dropped(self: VariantData, newAccess: Access): set<Capability> {
    Caps(self.access) - Caps(newAccess)
  }

  function Added(self: VariantData, newAccess: Access): set<Capability> {
    Caps(newAccess) - Caps(self.access)
  }

  /** `ChangeFlags(newAccess)`: taking a permission away needs
      `RestrictFlags`, adding one needs `UnrestrictFlags`, and the
      restriction is tested first. When some permission changes, the new
      flags are installed as given; when none does, nothing changes. */
  function ChangeFlags(self: VariantData, heap: Heap, newAccess: Access): (s: Step)
    ensures s.self.ty == self.ty && s.self.ptr == self.ptr
    ensures s.heap == heap
    ensures Dropped(self, newAccess) != {} && !Has(self.access, Capability.RestrictFlags) ==>
      s.result == Err(PermissionDenied(Capability.RestrictFlags))
    ensures
      ((Dropped(self, newAccess) == {} || Has(self.access, Capability.RestrictFlags))
       && Added(self, newAccess) != {} && !Has(self.access, Capability.UnrestrictFlags))
      ==> s.result == Err(PermissionDenied(Capability.UnrestrictFlags))
    ensures s.result.Ok? <==>
      && (Dropped(self, newAccess) != {} ==> Has(self.access, Capability.RestrictFlags))
      && (Added(self, newAccess) != {} ==> Has(self.access, Capability.UnrestrictFlags))
    ensures s.result.Err? ==> s.self == self
    ensures s.result.Ok? ==> s.result.out == Done && s.self.ptr == self.ptr && s.self.ty == self.ty
    ensures s.result.Ok? ==> Caps(s.self.access) == Caps(newAccess)
    ensures s.result.Ok? && Caps(newAccess) == Caps(self.access) ==> s.self == self
    ensures s.result.Ok? && Caps(newAccess) != Caps(self.access) ==> s.self.access == newAccess
  {
    var hasRestrict := !IsEmpty(And(self.access, Complement(newAccess)));
    var hasUnrestrict := !IsEmpty(And(newAccess, Complement(self.access)));
    CapsWithin(self.access);
    CapsWithin(newAccess);
    if hasRestrict && AssertAccess(self, Capability.RestrictFlags).Fail? then
      Step(self, heap, Err(PermissionDenied(Capability.RestrictFlags)))
    else if hasUnrestrict && AssertAccess(self, Capability.UnrestrictFlags).Fail? then
      Step(self, heap, Err(PermissionDenied(Capability.UnrestrictFlags)))
    else if hasRestrict || hasUnrestrict then
      Step(self.(access := newAccess), heap, Ok(Done))
    else
      Step(self, heap, Ok(Done))
  }

  /** `GetFlags()`, `HasValue()`, `GetType()`. */
  function GetFlags(self: VariantData): Access {
    self.access
  }

  function HasValue(self: VariantData): bool {
    self.ptr.At?
  }

  function GetType(self: VariantData): TypeId {
    self.ty
  }

  /** The defaulted copy constructor: the copy shares the object. */
  function Copy(source: VariantData): (VariantData, VariantData) {
    (source, source)
  }

  /** The defaulted move constructor and move assignment: the target takes
      the pointer, type and flags; the moved-from pointer is left empty,
      its type and flags are copied, not cleared. */
  function Move(source: VariantData): (VariantData, VariantData) {
    (source, source.(ptr := Null))
  }

  // ---------------------------------------------------------------------
  // Caller side: reading and writing through what the container handed out.

  /** Reading the object a pointer or reference designates. */
  function Load(heap: Heap, r: Ref): Value
    requires r in heap.cells
  {
    heap.cells[r].val
  }

  /** Assigning through a mutable pointer or reference. */
  function Store(heap: Heap, r: Ref, v: Value): (h: Heap)
    requires r in heap.cells
    ensures Overwrites(heap, h, r, Cell(heap.cells[r].ty, v))
  {
    Write(heap, r, v)
  }

  /** The permission view lies inside the named permissions. */
  lemma CapsWithin(a: Access)
    ensures Caps(a) <= AllCaps
  {
  }
}

=== FILE: variant_properties.dfy ===
/** Properties that relate several calls on a container: what one call
    makes visible to the next, which handles alias the container's object
    and which are independent of it, and how flag changes undo each other. */
module Properties {
  import opened AccessFlags
  import opened EnumBitFlags
  import V = Variant

  /** A consistent container dereferences successfully exactly when it
      holds a value: an invalid dereference can only come from an empty
      pointer. */
  lemma LiveIffHasValue(self: V.VariantData, heap: V.Heap)
    requires V.Consistent(self, heap)
    ensures V.Live(self, heap) <==> V.HasValue(self)
  {
  }

  /** `AssignPut` then `AssignGet` gives back the value put. */
  lemma AssignPutThenAssignGet(self: V.VariantData, heap: V.Heap, t: V.TypeId, v: V.Value)
    requires t == self.ty && V.Live(self, heap)
    requires Has(self.access, Capability.AssignPut) && Has(self.access, Capability.AssignGet)
    ensures V.AssignGet(self, V.AssignPut(self, heap, t, v).heap, t).result == V.Ok(V.Copied(v))
  {
  }

  /** A value stored through a pointer from `ShareMut` is what the
      container reads back: the pointer aliases the container's object. */
  lemma ShareMutAliases(self: V.VariantData, heap: V.Heap, t: V.TypeId, v: V.Value)
    requires t == self.ty && V.Live(self, heap)
    requires Has(self.access, Capability.ShareMut) && Has(self.access, Capability.AssignGet)
    ensures V.ShareMut(self, heap, t).result.out.ptr == self.ptr
    ensures V.AssignGet(self, V.Store(heap, self.ptr.ref, v), t).result == V.Ok(V.Copied(v))
  {
  }

  /** A value assigned with `AssignPut` is seen through a pointer handed
      out earlier by `ShareConst`. */
  lemma AssignPutVisibleThroughShareConst(self: V.VariantData, heap: V.Heap, t: V.TypeId, v: V.Value)
    requires t == self.ty && V.Live(self, heap)
    requires Has(self.access, Capability.ShareConst) && Has(self.access, Capability.AssignPut)
    ensures V.ShareConst(self, heap, t).result.out.ptr.At?
    ensures V.Load(V.AssignPut(self, heap, t, v).heap, V.ShareConst(self, heap, t).result.out.ptr.ref) == v
  {
  }

  /** `CloneGet` hands out an independent copy: assigning into the
      container leaves the copy as it was, and writing through the copy
      leaves the container's value as it was. */
  lemma CloneGetIsIndependent(self: V.VariantData, heap: V.Heap, t: V.TypeId, v: V.Value, w: V.Value)
    requires t == self.ty && V.Live(self, heap)
    requires Has(self.access, Capability.CloneGet)
    requires Has(self.access, Capability.AssignPut) && Has(self.access, Capability.AssignGet)
    ensures var s := V.CloneGet(self, heap, t);
      var q := s.result.out.ptr.ref;
      && q != self.ptr.ref
      && V.Load(s.heap, q) == V.Load(heap, self.ptr.ref)
      && V.Load(V.AssignPut(self, s.heap, t, v).heap, q) == V.Load(heap, self.ptr.ref)
      && V.AssignGet(self, V.Store(s.heap, q, w), t).result == V.Ok(V.Copied(V.Load(heap, self.ptr.ref)))
  {
  }

  /** `ClonePut` rebinds the container to a fresh object holding the new
      value, which `AssignGet` then reads; an object shared out earlier
      keeps its old value. */
  lemma ClonePutRebinds(self: V.VariantData, heap: V.Heap, t: V.TypeId, v: V.Value, earlier: V.Ref)
    requires t == self.ty
    requires Has(self.access, Capability.ClonePut) && Has(self.access, Capability.AssignGet)
    requires earlier in heap.cells
    ensures V.AssignGet(V.ClonePut(self, heap, t, v).self, V.ClonePut(self, heap, t, v).heap, t).result
      == V.Ok(V.Copied(v))
    ensures V.Load(V.ClonePut(self, heap, t, v).heap, earlier) == V.Load(heap, earlier)
  {
  }

  /** `Replace` hands back the displaced pointer, and replacing with it
      again restores the container exactly and hands back the pointer
      installed in between. */
  lemma ReplaceRoundTrip(self: V.VariantData, heap: V.Heap, t: V.TypeId, p: V.Ptr)
    requires V.Consistent(self, heap)
    requires V.Typed(heap, p, t)
    requires t == self.ty && Has(self.access, Capability.Replace)
    ensures V.Replace(self, heap, t, p).result.out == V.Handle(self.ptr, true)
    ensures var s := V.Replace(self, heap, t, p);
      V.Typed(s.heap, self.ptr, t)
      && V.Replace(s.self, s.heap, t, self.ptr) == V.Step(self, heap, V.Ok(V.Handle(p, true)))
  {
  }

  /** `ChangeType` records the new type and installs the new flags as
      given, bits outside the mask included, whatever they were. */
  lemma ChangeTypeThenGetters(self: V.VariantData, heap: V.Heap, t: V.TypeId, p: V.Ptr, a: Access)
    requires V.Typed(heap, p, t)
    requires Has(self.access, Capability.ChangeType)
    ensures var s := V.ChangeType(self, heap, t, p, a);
      V.GetType(s.self) == t && V.GetFlags(s.self) == a && V.HasValue(s.self) == p.At?
  {
  }

  /** Taking permissions away only: allowed exactly with `RestrictFlags`. */
  lemma ChangeFlagsNarrowing(self: V.VariantData, heap: V.Heap, a: Access)
    requires Caps(a) < Caps(self.access)
    ensures V.ChangeFlags(self, heap, a).result.Ok? <==> Has(self.access, Capability.RestrictFlags)
    ensures V.ChangeFlags(self, heap, a).result.Ok? ==> V.GetFlags(V.ChangeFlags(self, heap, a).self) == a
  {
  }

  /** Adding permissions only: allowed exactly with `UnrestrictFlags`. */
  lemma ChangeFlagsWidening(self: V.VariantData, heap: V.Heap, a: Access)
    requires Caps(self.access) < Caps(a)
    ensures V.ChangeFlags(self, heap, a).result.Ok? <==> Has(self.access, Capability.UnrestrictFlags)
    ensures V.ChangeFlags(self, heap, a).result.Ok? ==> V.GetFlags(V.ChangeFlags(self, heap, a).self) == a
  {
  }

  /** When some permissions are taken away and others added, and
      `RestrictFlags` is not granted, the error names `RestrictFlags`
      whether or not `UnrestrictFlags` is: the restriction is tested
      first. */
  lemma ChangeFlagsRestrictionTestedFirst(self: V.VariantData, heap: V.Heap, a: Access)
    requires V.Dropped(self, a) != {} && V.Added(self, a) != {}
    requires !Has(self.access, Capability.RestrictFlags)
    ensures V.ChangeFlags(self, heap, a).result == V.Err(V.PermissionDenied(Capability.RestrictFlags))
  {
  }

  /** New flags that carry the same permissions, whatever bits outside
      the mask they add or remove, are no change at all: the stored flags
      stay as they were, even without either permission. */
  lemma ChangeFlagsIgnoresBitsOutsideMask(self: V.VariantData, heap: V.Heap, a: Access)
    requires Caps(a) == Caps(self.access)
    ensures V.ChangeFlags(self, heap, a) == V.Step(self, heap, V.Ok(V.Done))
  {
  }

  /** When both the old and the new flags grant `RestrictFlags` and
      `UnrestrictFlags`, changing back to the old flags undoes the change
      exactly. */
  lemma ChangeFlagsUndo(self: V.VariantData, heap: V.Heap, a: Access)
    requires Has(self.access, Capability.RestrictFlags) && Has(self.access, Capability.UnrestrictFlags)
    requires Has(a, Capability.RestrictFlags) && Has(a, Capability.UnrestrictFlags)
    ensures var s := V.ChangeFlags(self, heap, a);
      V.ChangeFlags(s.self, s.heap, self.access) == V.Step(self, heap, V.Ok(V.Done))
  {
  }

  /** A copy shares the object: both copies report the source's type,
      flags and emptiness, and a value assigned through one copy is read
      back through the other. */
  lemma CopySharesObject(self: V.VariantData, heap: V.Heap, t: V.TypeId, v: V.Value)
    requires t == self.ty && V.Live(self, heap)
    requires Has(self.access, Capability.AssignPut) && Has(self.access, Capability.AssignGet)
    ensures forall c | c in [V.Copy(self).0, V.Copy(self).1] ::
      V.GetType(c) == V.GetType(self) && V.GetFlags(c) == V.GetFlags(self) && V.HasValue(c) == V.HasValue(self)
    ensures V.AssignGet(V.Copy(self).1, V.AssignPut(V.Copy(self).0, heap, t, v).heap, t).result
      == V.Ok(V.Copied(v))
  {
  }

  /** After a move the target is the source as it was, and the moved-from
      container holds no value but keeps its type and flags. Every
      permitted, well-typed call that dereferences the pointer on it is an
      invalid dereference that changes nothing, and the permitted sharing
      calls hand out an empty pointer. */
  lemma MovedFromIsEmpty(self: V.VariantData, heap: V.Heap)
    ensures V.Move(self).0 == self
    ensures var m := V.Move(self).1;
      !V.HasValue(m) && V.GetType(m) == V.GetType(self) && V.GetFlags(m) == V.GetFlags(self)
    ensures var m := V.Move(self).1;
      Has(self.access, Capability.AssignPut) ==>
        forall v :: V.AssignPut(m, heap, self.ty, v) == V.Step(m, heap, V.Err(V.InvalidDereference))
    ensures var m := V.Move(self).1;
      Has(self.access, Capability.AssignGet) ==>
        V.AssignGet(m, heap, self.ty).result == V.Err(V.InvalidDereference)
    ensures var m := V.Move(self).1;
      Has(self.access, Capability.CloneGet) ==>
        V.CloneGet(m, heap, self.ty).result == V.Err(V.InvalidDereference)
    ensures var m := V.Move(self).1;
      Has(self.access, Capability.RefConst) ==>
        V.RefConst(m, heap, self.ty).result == V.Err(V.InvalidDereference)
    ensures var m := V.Move(self).1;
      Has(self.access, Capability.RefMut) ==>
        V.RefMut(m, heap, self.ty).result == V.Err(V.InvalidDereference)
    ensures var m := V.Move(self).1;
      Has(self.access, Capability.ShareConst) ==>
        V.ShareConst(m, heap, self.ty).result == V.Ok(V.Handle(V.Null, false))
    ensures var m := V.Move(self).1;
      Has(self.access, Capability.ShareMut) ==>
        V.ShareMut(m, heap, self.ty).result == V.Ok(V.Handle(V.Null, true))
  {
  }

  /** Type safety under erasure: with `ClonePut` and `RefConst` granted,
      putting an `int` 5 and then asking for a `string` reference throws
      `bad_cast`, while an `int` reference designates the 5. */
  lemma TypeSafetyExample(heap: V.Heap, p: V.Ptr)
    requires V.Typed(heap, p, V.TypeId("int"))
    ensures var self := V.VariantData(p, V.TypeId("int"), Bit(Capability.ClonePut) + Bit(Capability.RefConst));
      var s := V.ClonePut(self, heap, V.TypeId("int"), 5);
      && s.result.Ok?
      && V.RefConst(s.self, s.heap, V.TypeId("string")).result == V.Err(V.BadCast)
      && V.RefConst(s.self, s.heap, V.TypeId("int")).result == V.Ok(V.Reference(s.self.ptr.ref, false))
      && V.Load(s.heap, s.self.ptr.ref) == 5
  {
  }

  /** Narrowing and widening are separate rights. Holding `AssignPut`
      and `RestrictFlags`, dropping `RestrictFlags` succeeds and installs
      the narrower flags. */
  lemma NarrowingExample(self: V.VariantData, heap: V.Heap)
    requires self.access == Bit(Capability.AssignPut) + Bit(Capability.RestrictFlags)
    ensures V.ChangeFlags(self, heap, Bit(Capability.AssignPut))
      == V.Step(self.(access := Bit(Capability.AssignPut)), heap, V.Ok(V.Done))
  {
  }

  /** With the same flags, adding `RefConst` is refused for want of
      `UnrestrictFlags`. */
  lemma WideningRefusedExample(self: V.VariantData, heap: V.Heap)
    requires self.access == Bit(Capability.AssignPut) + Bit(Capability.RestrictFlags)
    ensures V.ChangeFlags(self, heap, self.access + Bit(Capability.RefConst)).result
      == V.Err(V.PermissionDenied(Capability.UnrestrictFlags))
  {
    var b := self.access + Bit(Capability.RefConst);
    CapsOfUnion(Bit(Capability.AssignPut), Bit(Capability.RestrictFlags));
    CapsOfUnion(self.access, Bit(Capability.RefConst));
    CapsOfBit(Capability.AssignPut);
    CapsOfBit(Capability.RestrictFlags);
    CapsOfBit(Capability.RefConst);
    CapsMember(self.access, Capability.UnrestrictFlags);
    assert V.Dropped(self, b) == {};
    assert Capability.RefConst in V.Added(self, b);
  }

  /** Asking for the flags already held succeeds and changes nothing,
      whatever rights are held. */
  lemma NoChangeExample(self: V.VariantData, heap: V.Heap)
    ensures V.ChangeFlags(self, heap, self.access) == V.Step(self, heap, V.Ok(V.Done))
  {
  }
}

=== FILE: variant_trace.dfy ===
/** Sequences of calls on one container, with other code writing through
    the pointers and references it was handed, and the properties that
    hold along every such sequence: a failed call changes nothing, only
    the type-changing and flag-changing calls touch the flags, the heap
    only grows and keeps every object's type, the container's pointer
    stays consistent with its recorded type, and a container without
    `UnrestrictFlags` and `ChangeType` can never gain a permission or
    change its type. */
module Trace {
  import opened AccessFlags
  import V = Variant

  /** One call on the container, or a write by other code through a
      mutable pointer or reference it holds to the object `r`. */
  datatype Command =
    | AssignPut(t: V.TypeId, v: V.Value)
    | AssignGet(t: V.TypeId)
    | ClonePut(t: V.TypeId, v: V.Value)
    | Emplace(t: V.TypeId, v: V.Value)
    | CloneGet(t: V.TypeId)
    | RefConst(t: V.TypeId)
    | RefMut(t: V.TypeId)
    | ShareConst(t: V.TypeId)
    | ShareMut(t: V.TypeId)
    | Replace(t: V.TypeId, p: V.Ptr)
    | ChangeType(t: V.TypeId, p: V.Ptr, a: Access)
    | ChangeTypeKeepFlags(t: V.TypeId, p: V.Ptr)
    | ChangeFlags(a: Access)
    | Store(r: V.Ref, v: V.Value)

  /** The command is one the source can express in this heap: pointer
      arguments have their static type, and writes go to a live object. */
  predicate Admissible(heap: V.Heap, cmd: Command) {
    match cmd
    case Replace(t, p) => V.Typed(heap, p, t)
    case ChangeType(t, p, _) => V.Typed(heap, p, t)
    case ChangeTypeKeepFlags(t, p) => V.Typed(heap, p, t)
    case Store(r, _) => r in heap.cells
    case _ => true
  }

  /** Neither `UnrestrictFlags` nor `ChangeType` is granted. */
  predicate Locked(a: Access) {
    !Has(a, Capability.UnrestrictFlags) && !Has(a, Capability.ChangeType)
  }

  /** One command: a call on the container, or a write by other code. */
  function Apply(self: V.VariantData, heap: V.Heap, cmd: Command): V.Step
    requires Admissible(heap, cmd)
  {
    match cmd
    case AssignPut(t, v) => V.AssignPut(self, heap, t, v)
    case AssignGet(t) => V.AssignGet(self, heap, t)
    case ClonePut(t, v) => V.ClonePut(self, heap, t, v)
    case Emplace(t, v) => V.Emplace(self, heap, t, v)
    case CloneGet(t) => V.CloneGet(self, heap, t)
    case RefConst(t) => V.RefConst(self, heap, t)
    case RefMut(t) => V.RefMut(self, heap, t)
    case ShareConst(t) => V.ShareConst(self, heap, t)
    case ShareMut(t) => V.ShareMut(self, heap, t)
    case Replace(t, p) => V.Replace(self, heap, t, p)
    case ChangeType(t, p, a) => V.ChangeType(self, heap, t, p, a)
    case ChangeTypeKeepFlags(t, p) => V.ChangeTypeKeepFlags(self, heap, t, p)
    case ChangeFlags(a) => V.ChangeFlags(self, heap, a)
    case Store(r, v) => V.Step(self, V.Store(heap, r, v), V.Ok(V.Done))
  }

  /** Runs the commands in order; a thrown error is caught by the caller
      and the run goes on. A command the source could not express ends the
      run. */
  function Run(self: V.VariantData, heap: V.Heap, cmds: seq<Command>): (V.VariantData, V.Heap)
    decreases |cmds|
  {
    if |cmds| == 0 || !Admissible(heap, cmds[0]) then (self, heap)
    else
      var s := Apply(self, heap, cmds[0]);
      Run(s.self, s.heap, cmds[1..])
  }

  /** A call that throws changes neither the container nor the heap. */
  lemma ApplyFailureChangesNothing(self: V.VariantData, heap: V.Heap, cmd: Command)
    requires Admissible(heap, cmd)
    ensures Apply(self, heap, cmd).result.Err? ==>
      Apply(self, heap, cmd).self == self && Apply(self, heap, cmd).heap == heap
  {
  }

  /** Only the `ChangeType` calls change the recorded type, and only they
      and `ChangeFlags` change the flags. */
  lemma ApplyFrame(self: V.VariantData, heap: V.Heap, cmd: Command)
    requires Admissible(heap, cmd)
    ensures !cmd.ChangeType? && !cmd.ChangeTypeKeepFlags? ==>
      Apply(self, heap, cmd).self.ty == self.ty
    ensures !cmd.ChangeType? && !cmd.ChangeFlags? ==>
      Apply(self, heap, cmd).self.access == self.access
  {
  }

  /** One command only grows the heap and keeps the container consistent. */
  lemma ApplyGrowsAndKeepsConsistent(self: V.VariantData, heap: V.Heap, cmd: Command)
    requires Admissible(heap, cmd)
    ensures V.Grows(heap, Apply(self, heap, cmd).heap)
    ensures V.Consistent(self, heap) ==>
      V.Consistent(Apply(self, heap, cmd).self, Apply(self, heap, cmd).heap)
  {
  }

  /** A `ChangeFlags` call on a locked container gains no permission and
      leaves it locked: any added permission needs `UnrestrictFlags`. */
  lemma ChangeFlagsLocked(self: V.VariantData, heap: V.Heap, a: Access)
    requires Locked(self.access)
    ensures Caps(V.ChangeFlags(self, heap, a).self.access) <= Caps(self.access)
    ensures Locked(V.ChangeFlags(self, heap, a).self.access)
  {
    var s := V.ChangeFlags(self, heap, a);
    if s.result.Ok? {
      forall c | c in Caps(a) ensures c in Caps(self.access) {
        assert c !in V.Added(self, a);
      }
      CapsMember(self.access, Capability.UnrestrictFlags);
      CapsMember(self.access, Capability.ChangeType);
      CapsMember(a, Capability.UnrestrictFlags);
      CapsMember(a, Capability.ChangeType);
    }
  }

  /** A locked container keeps its lock and never gains a permission in one
      command, and its type stays. */
  lemma ApplyLocked(self: V.VariantData, heap: V.Heap, cmd: Command)
    requires Admissible(heap, cmd)
    requires Locked(self.access)
    ensures Caps(Apply(self, heap, cmd).self.access) <= Caps(self.access)
    ensures Locked(Apply(self, heap, cmd).self.access)
    ensures Apply(self, heap, cmd).self.ty == self.ty
  {
    match cmd
    case ChangeFlags(a) =>
      ChangeFlagsLocked(self, heap, a);
    case ChangeType(t, p, a) =>
      CapsMember(self.access, Capability.ChangeType);
    case ChangeTypeKeepFlags(t, p) =>
      CapsMember(self.access, Capability.ChangeType);
    case _ =>
      ApplyFrame(self, heap, cmd);
  }

  /** Over any run, the heap only grows and keeps the type of every object. */
  lemma {:induction false} RunGrows(self: V.VariantData, heap: V.Heap, cmds: seq<Command>)
    ensures V.Grows(heap, Run(self, heap, cmds).1)
    decreases |cmds|
  {
    if |cmds| > 0 && Admissible(heap, cmds[0]) {
      var s := Apply(self, heap, cmds[0]);
      ApplyGrowsAndKeepsConsistent(self, heap, cmds[0]);
      RunGrows(s.self, s.heap, cmds[1..]);
    }
  }

  /** Over any run, the container's pointer stays consistent with its
      recorded type. */
  lemma {:induction false} RunConsistent(self: V.VariantData, heap: V.Heap, cmds: seq<Command>)
    requires V.Consistent(self, heap)
    ensures V.Consistent(Run(self, heap, cmds).0, Run(self, heap, cmds).1)
    decreases |cmds|
  {
    if |cmds| > 0 && Admissible(heap, cmds[0]) {
      var s := Apply(self, heap, cmds[0]);
      ApplyGrowsAndKeepsConsistent(self, heap, cmds[0]);
      RunConsistent(s.self, s.heap, cmds[1..]);
    }
  }

  /** No escalation: a container granted neither `UnrestrictFlags` nor
      `ChangeType` ends any run with no permission it did not start with,
      and with its type unchanged. */
  lemma {:induction false} RunNoEscalation(self: V.VariantData, heap: V.Heap, cmds: seq<Command>)
    requires Locked(self.access)
    ensures Caps(Run(self, heap, cmds).0.access) <= Caps(self.access)
    ensures Run(self, heap, cmds).0.ty == self.ty
    decreases |cmds|
  {
    if |cmds| > 0 && Admissible(heap, cmds[0]) {
      var s := Apply(self, heap, cmds[0]);
      ApplyLocked(self, heap, cmds[0]);
      RunNoEscalation(s.self, s.heap, cmds[1..]);
    }
  }

  /** A run with no type-changing or flag-changing command leaves the flags
      and the type exactly as they were. */
  lemma {:induction false} RunKeepsFlagsAndType(self: V.VariantData, heap: V.Heap, cmds: seq<Command>)
    requires forall i | 0 <= i < |cmds| ::
      !cmds[i].ChangeType? && !cmds[i].ChangeTypeKeepFlags? && !cmds[i].ChangeFlags?
    ensures Run(self, heap, cmds).0.access == self.access
    ensures Run(self, heap, cmds).0.ty == self.ty
    decreases |cmds|
  {
    if |cmds| > 0 && Admissible(heap, cmds[0]) {
      var s := Apply(self, heap, cmds[0]);
      ApplyFrame(self, heap, cmds[0]);
      RunKeepsFlagsAndType(s.self, s.heap, cmds[1..]);
    }
  }
}
